=== FILE: README.md ===
# Live-stream recorder: detection and deduplication engine

A Dafny model of the control logic of a program that watches YouTube
channels and records each live broadcast it sees at most once per run. The whole
program is `main.py`. The model covers four parts of it:

- **Configuration validation** (`get_config`). The input is the parsed YAML
  document (`Yaml.Value`). The result is an accepted `Config` or the error
  message the program prints. Whether a destination directory can be created
  is an oracle, `canCreateDir`.
- **Feed extraction**. The input is the parsed Atom feed as an element tree
  (`Feed.Elem`). The output is one record per `}entry` child, in document
  order. Within an entry, the last `}videoId` and the last `}title` child win.
- **The poll cycle**. For each channel in order, and for each video of its
  feed in order, the cycle does four things:
  - it skips ids that `videos_seen` already holds;
  - otherwise it asks the classifier about the watch URL;
  - it launches a recording when the video is live;
  - it marks the id seen when the classification succeeded.

  A failed classification leaves the id unseen, so it is retried in the next
  cycle. So does a live video whose feed record has no title: reading the
  title raises a `KeyError` inside the `try`, which the catch-all handler
  reports, before the id is marked. A download error whose message contains "This live event will begin
  in" is reported from the first occurrence of that phrase onward.
- **The main loop** (`Scheduler`). Startup reads the configuration first and
  the seen file second. Each iteration runs a cycle, writes the seen map back
  to the file and refreshes the configuration. A refused configuration keeps
  the previous one. The infinite loop is modelled as a finite sequence of
  iterations (`Scheduler.Tick`). Each tick carries what the outside world
  supplies to that iteration:
  - the feed of each channel id;
  - the classifier's verdicts;
  - the configuration document read after the sleep;
  - the directory oracle.

Launched recordings and the classifier calls are `Engine.Event`s. That is
how the model states its main guarantees:

- at most one recording per video id across any number of iterations of one run;
- the seen map only grows;
- a failed classification is retried;
- a seen id is never handed to the classifier again;
- the seen file reloads to the same map;
- a bad refresh keeps the old configuration.

With two exceptions, the model follows the code wherever the code's
behaviour differs from its own messages or from what one might expect. Both
exceptions are configurations that validation accepts but the loop then
stops on:

- A configuration without `channels`: the loop raises `KeyError` at
  main.py:87. The loop model instead polls the validated, empty channel list
  (see "## Findings" and "## Left out").
- A negative `interval`, or one too large for `time.sleep`: the first
  iteration runs its cycle and writes the seen file, and then `time.sleep`
  raises (`ValueError` or `OverflowError`, main.py:128) before the refresh.
  The loop model does not sleep, so it refreshes and goes on iterating (see
  "## Left out").

The cases where the model follows the code:

- `get_config` checks only that `interval` is an `int`. Zero and negative
  values are accepted, although the message asks for a positive integer.
- A seen file that exists but does not parse is not caught. The program
  stops at startup; it does not start with an empty map.
- A feed fetch or parse failure is not caught either. There is no
  per-channel skip, so none is modelled.
- A scheduled live event is not a separate classifier outcome. It is a
  `DownloadError` whose message contains the marker phrase.
- `videos_seen.get(id) is None` treats a key holding `null` as unseen. Such a
  key only comes from an edited file. `SeenStore.Grows` therefore allows a
  `null` entry to become `True` and no other entry to change.

Files: `wrappers.dfy` (Option, Result), `text.dfy` (`endswith`, `in`,
`index`), `yaml.dfy`, `config_source.dfy`, `feed.dfy`, `seen_store.dfy`,
`engine.dfy`, `scheduler.dfy`.

## Model

| member | source | states |
|---|---|---|
| ConfigSource.GetConfig | main.py:24-47 | an unparsable or non-mapping document gives "Cannot load config.yaml"; a missing, null or non-int `interval` gives the interval message; any int is the accepted interval; absent `channels` means no channels; non-list `channels` gives the list message; otherwise success iff every channel passes, with one channel per element in order, or else the first failing channel's message; every accepted destination is creatable |
| ConfigSource.CheckChannel | main.py:34-47 | one element passes exactly when it is a mapping with a string `id` and a string `save_to` whose directory can be created, and the channel carries those two strings; a non-mapping element fails with "Cannot load config.yaml", a bad `id` with the id message (checked first), a bad destination with the `save_to` message |
| ConfigSource.ValidateChannels | main.py:34-44 | the channels are checked in list order: success iff every element passes, with the channels in the same order; a failure carries the message of the first failing element, all earlier ones having passed |
| ConfigSource.Refresh | main.py:129-133 | after a refresh the active configuration is the new one when it validates and the previous one, unchanged, when it does not |
| ConfigSource.AcceptsNonPositiveInterval | main.py:28-30 | intervals 0 and -30 are accepted although the message asks for a positive integer |
| ConfigSource.RejectsBoolInterval | main.py:29 | a boolean `interval` is rejected because its type is `bool`, not `int` |
| Text.Find | main.py:119-120 | `pat in s` holds exactly when a position is found, and the position is the first occurrence (`str.index`) |
| Engine.ScheduledText | main.py:117-121 | a scheduled-event text exists exactly when the message contains the marker phrase; it is the suffix of the message that starts at the phrase's first occurrence |
| Feed.LastText | main.py:99-103 | the reference reading of the entry loop: present exactly when some child's tag has the suffix, and then the text of the last such child |
| Feed.Absorb | main.py:100-103 | one child overwrites `id` when its tag ends in `}videoId` and `title` when it ends in `}title`, and leaves each field as it was otherwise |
| Feed.Scan | main.py:99-103 | the forward loop that overwrites the record child by child yields, for `id` and `title`, the last matching child's text (as `Feed.LastText` reads it), or the starting value when none matches |
| Feed.MakeEntry | main.py:98-103 | an entry's `id` and `title` are the texts of its last `}videoId` and `}title` children, absent when there is none |
| Feed.ExtractEntries | main.py:96-104 | at most one record per child, and every record is built from a child whose tag ends in `}entry` |
| Feed.ExtractEntriesKeepsEntries | main.py:96-104 | every child whose tag ends in `}entry` contributes its record; none is dropped |
| Feed.ExtractEntriesSingle | main.py:97-104 | a single child yields exactly its record when its tag ends in `}entry`, and nothing otherwise |
| Feed.ExtractEntriesAppend | main.py:96-104 | extraction keeps document order: the records of two runs of children are the first run's records followed by the second's |
| Feed.CollectEntries | main.py:95-104 | the loop that appends a record per entry child produces exactly the records of the children in order |
| Feed.Videos | main.py:104-108 | the cycle walks the extracted records in order, one video per record, each with the record's id and its title, or no title when the record has none |
| SeenStore.Mark | main.py:116 | marking makes the id seen with value `True` and leaves every other key and value as it was |
| SeenStore.MarkGrows | main.py:109-116 | marking an unseen id only extends the map |
| SeenStore.Load | main.py:77-82 | an absent file or a non-mapping document loads as the empty map, a mapping loads as itself, and an unparsable file stops the program |
| SeenStore.Persist | main.py:126-127 | the dumped map reloads unchanged |
| Engine.WatchUrlInjective | main.py:110 | distinct video ids have distinct watch URLs |
| Engine.DownloadReport | main.py:117-123 | a download error is reported as a scheduled event exactly when its message contains the marker phrase, with the text `Engine.ScheduledText` cuts from it; otherwise the whole message is reported |
| Engine.HandleVideo | main.py:107-125 | a seen id causes no event and no change; otherwise the classifier is asked exactly about the unseen id, and the id ends seen exactly when the video settles (classified not live, or live with a title); exactly one recording is launched iff it is live and titled, with the watch URL, the channel's destination and the title; a live video without a title is reported with the `KeyError` text, launches nothing and stays unseen; a download error is reported through `Engine.DownloadReport` (the scheduled-event text from the marker phrase on, or the whole message) and any other exception with its text, in both cases without a launch or a mark |
| Engine.ProcessFeed | main.py:106-125 | over a channel's feed the map only grows and no id seen at the start is classified or launched; `Engine.FeedSeen`, `Engine.FeedProbes`, `Engine.FeedLaunches` and `Engine.FeedJobs` characterise the rest |
| Engine.FeedSeen | main.py:107-125 | over a channel's feed an id ends seen iff it was seen or one of its occurrences settles; a failed classification, or a live video without a title, leaves it unseen |
| Engine.FeedProbes | main.py:109-112 | over a channel's feed the classifier is asked exactly about the feed's ids that were unseen at the start |
| Engine.FeedLaunches | main.py:109-116 | over a channel's feed exactly one recording is launched for an unseen, live id that has a titled record in the feed, and none for any other id |
| Engine.FeedJobs | main.py:113-115 | every recording launched for a feed carries the watch URL and title of one of its titled videos and the channel's `save_to` |
| Engine.OfferedByChannel | main.py:87-108 | an id is offered in a cycle exactly when the feed of some configured channel holds it |
| Engine.RunCycle | main.py:87-125 | over a whole cycle the map only grows and no id seen at the start is classified or launched; `Engine.CycleSeen`, `Engine.CycleProbes`, `Engine.CycleLaunches` and `Engine.CycleJobs` characterise the rest |
| Engine.CycleSeen | main.py:87-125 | over a whole cycle an id ends seen iff it was seen or one of its offered occurrences settles |
| Engine.CycleProbes | main.py:87-112 | over a whole cycle the classifier is asked exactly about the offered ids that were unseen at the start, never about a seen id |
| Engine.CycleLaunches | main.py:87-116 | over a whole cycle exactly one recording is launched for each unseen, live id with a titled offered record, and none for any other id |
| Engine.CycleJobs | main.py:87-115 | every recording launched in a cycle is for a titled video of some channel's feed, with that channel's destination |
| Engine.TwoVideoScenario | main.py:107-116 | a feed with a live and an ordinary video yields one launch and marks both ids; the same feed polled again yields no event at all |
| Engine.ScheduledLiveScenario | main.py:111-121 | a video whose classification fails with the scheduled-event message yields a probe and a notice with the text from the marker phrase on, no launch, and an unchanged map |
| Engine.UntitledLiveScenario | main.py:111-125 | a live video without a title yields a probe and a reported `KeyError`, no launch, and an unchanged map, so the next poll does the same again |
| Scheduler.Start | main.py:69-82 | startup fails with the validation message when the configuration is refused, fails when the seen file does not parse, and otherwise starts from the validated configuration and the loaded map (empty for an absent or non-mapping file) |
| Scheduler.Advance | main.py:85-133 | one iteration: the map only grows; an id seen before is neither classified nor launched; at most one launch per id and a launched id ends seen; the written file reloads to the map; the configuration is the refreshed one if valid and the old one otherwise |
| Scheduler.RunTicks | main.py:85-133 | across any number of iterations the map only grows, the file written last reloads to the map, and the active configuration is the last refreshed document that validated (`Scheduler.ConfigAfter`), or the starting one when none did; `Scheduler.AtMostOneLaunch` and `Scheduler.NeverReclassified` characterise the events |
| Scheduler.ConfigAfterCons | main.py:128-133 | refreshing iteration by iteration, keeping the old configuration on a refused document, reaches the last document that validated |
| Scheduler.AtMostOneLaunch | main.py:85-133 | across any number of iterations no id gets more than one recording, an id seen at the start gets none, and every launched id is seen at the end |
| Scheduler.NeverReclassified | main.py:109 | an id seen at the start is never handed to the classifier in any later iteration |
| Scheduler.FailedIsRetried | main.py:116-125 | an id whose classification fails stays unseen and is classified again in the next iteration if a channel still offers it |
| Scheduler.AdvanceRetries | main.py:85-125 | over two iterations of the loop, an id whose classification fails in the first is still unseen after it and is handed to the classifier again in the second when a channel offers it |
| Scheduler.AdvanceRunsCycle | main.py:85-133 | an iteration polls the active channels with the current map, and the next iteration runs with the map it leaves and the refreshed configuration |
| Scheduler.RestartResumes | main.py:77-82 | restarting from the file written by an iteration, with a configuration that validates to the active one, gives exactly the state the loop continues from |
| Scheduler.AbsentChannelsRaiseAsWritten | main.py:87 | a document without `channels` passes validation, yet indexing the raw mapping for `channels` fails |
| Scheduler.AbsentChannelsIdle | main.py:31 | with the validated default of no channels, an iteration emits no event and keeps the seen map |

## Left out

- Feed fetch and XML parsing (main.py:89-94): each tick gives the parsed feed of every channel id. A fetch or parse failure ends the program, because nothing catches it; this is not modelled.
- Classification (`extract_info`, main.py:106-112): an oracle per iteration, a function of the watch URL. Two probes of the same URL within one iteration therefore get the same verdict.
- Recording (`record_live_stream` and `Process.start`, main.py:50-55, 114-115): a `Launch` event. The recording itself is not modelled, nor is its change of working directory or its concurrency. A `start()` that raises would be caught by `except Exception` and leave the id unseen; the model assumes the launch succeeds.
- File I/O: the configuration and seen files are given as parsed values. Opening the configuration file is outside the `try` (main.py:25), so a missing file ends the program; the model assumes the file can be opened. A failure to write the seen file (main.py:126-127) also ends the program; the model assumes the write succeeds.
- Directory creation (main.py:40): the `canCreateDir` oracle. The directories created for channels checked before a failing one are not recorded.
- Sleep and the infinite loop (main.py:85, 128): a finite sequence of ticks. The interval is carried in `Config` but not used for timing.
- Argument parsing, `os.chdir`, logging and the silent logger (main.py:17-21, 58-66, 70, 75, 84): plumbing. The printed reports are events, without their exact formatting.
- YAML mappings with non-string keys, and element text that is `None` (an empty XML element): `Yaml.Value` maps have string keys and `Feed.Elem` text is a string.
- Engine.RunCycle: requires every record of every polled feed to carry an id (`WellFormedFeeds`; likewise `Scheduler.CanPoll` and `Scheduler.Feasible`). A missing id raises `KeyError` at main.py:108, outside the `try`, and ends the program; that crash is not modelled. A missing title is modelled: it is only read for a live video, inside the `try` (main.py:114), so it is reported and the id stays unseen.
- Scheduler.Advance: polls the validated channel list, which is empty for a document without `channels`. For such a document, which validation accepts at startup or on a refresh (main.py:31, 133), the model runs an idle iteration. The program instead raises an uncaught `KeyError` at main.py:87, because it indexes the raw mapping, and stops. `Scheduler.AbsentChannelsRaiseAsWritten` exhibits the code as written. Likewise, for an active configuration whose `interval` is negative or too large for `time.sleep`, the model refreshes the configuration after the cycle. The program instead raises `ValueError` or `OverflowError` in `time.sleep` (main.py:128), after writing the seen file and before the refresh, and stops.
- Scheduler.RunTicks: for the same reason, it runs any number of idle iterations with a configuration that lacks `channels`, whereas the program stops with `KeyError` at the first of them (main.py:87). It also goes on iterating with a negative or oversized `interval`, whereas the program stops in `time.sleep` at the end of the first iteration that uses it (main.py:128).
- Scheduler.RestartResumes: covers a restart between iterations only. The seen map is written once per iteration (main.py:126-127). A crash in the middle of a cycle, after some launches, loses the marks of that cycle: an uncaught fetch or parse failure (main.py:93-94) or a missing id (main.py:108). After a restart the same live video can then be recorded a second time. So "at most one recording per id" holds within one run of the program, not across such crashes.
- A live video whose classification keeps failing, or whose record keeps lacking a title, is never recorded: the model promises that it is retried (`Scheduler.FailedIsRetried`, `Engine.UntitledLiveScenario`), not that it is eventually recorded.

## Findings

| source | as written | input that shows it | evidently intended | confidence | as-written member | corrected member |
|---|---|---|---|---|---|---|
| main.py:31, main.py:87 | validation defaults a missing `channels` to `[]`, but the loop indexes `config['channels']` on the raw mapping | a configuration with `interval: 60` and no `channels` passes validation, then raises `KeyError` at the first iteration | a missing `channels` means no channels, so the iteration does nothing | high, not executed | Scheduler.AbsentChannelsRaiseAsWritten | Scheduler.AbsentChannelsIdle |

=== FILE: config_source.dfy ===
/** Validation of the parsed configuration document (`get_config`) and the
    refresh rule of the main loop. Creating a channel's destination
    directory is an oracle `canCreateDir`: it answers whether
    `mkdir(parents=True, exist_ok=True)` on that path would succeed. */
module ConfigSource {
  import opened Wrappers
  import opened Yaml

  const IntervalError: string := "`interval` must be a positive integer"
  const ChannelsError: string := "`channels` must be a list"
  const IdError: string := "`channels[].id must be a string"
  const SaveToError: string := "`channels[].save_to must be a writable directory path"
  const LoadError: string := "Cannot load config.yaml"

  /** One monitored channel: its id and the directory recordings go to. */
  datatype Channel = Channel(id: string, saveTo: string)

  /** An accepted configuration: poll interval in seconds and the channels in listed order. */
  datatype Config = Config(interval: int, channels: seq<Channel>)

  /** The document parsed and its top level is a mapping. */
  predicate IsMapDoc(doc: Option<Value>)
  {
    doc.Some? && doc.value.Map?
  }

  /** The document is a mapping whose `interval` is an integer (of any sign). */
  predicate HasIntInterval(doc: Option<Value>)
  {
    IsMapDoc(doc) && "interval" in doc.value.entries && doc.value.entries["interval"].Int?
  }

  /** The check of one element of `channels`. An element that is not a
      mapping has no `.get`, and the resulting exception is caught by the
      catch-all handler, which reports `LoadError`. */
  function CheckChannel(item: Value, canCreateDir: string -> bool): (r: Result<Channel, string>)
    // accepted exactly for a mapping with a string `id` and a string, creatable `save_to`
    ensures r.Success? <==>
      && item.Map?
      && "id" in item.entries && item.entries["id"].Str?
      && "save_to" in item.entries && item.entries["save_to"].Str?
      && canCreateDir(item.entries["save_to"].s)
    ensures r.Success? ==> r.value == Channel(item.entries["id"].s, item.entries["save_to"].s)
    ensures !item.Map? ==> r == Failure(LoadError)
    // the id is checked before the destination
    ensures item.Map? && !("id" in item.entries && item.entries["id"].Str?) ==> r == Failure(IdError)
    ensures item.Map? && "id" in item.entries && item.entries["id"].Str? && r.Failure? ==> r == Failure(SaveToError)
  {
    match item
    case Map(m) =>
      if !Get(m, "id").Str? then Failure(IdError)
      else if !Get(m, "save_to").Str? || !canCreateDir(Get(m, "save_to").s) then Failure(SaveToError)
      else Success(Channel(Get(m, "id").s, Get(m, "save_to").s))
    case _ => Failure(LoadError)
  }

  /** The channel loop: every element is checked in list order and the first
      failure is the result; success yields one channel per element. */
  function ValidateChannels(items: seq<Value>, canCreateDir: string -> bool): (r: Result<seq<Channel>, string>)
    ensures r.Success? <==> forall i :: 0 <= i < |items| ==> CheckChannel(items[i], canCreateDir).Success?
    ensures r.Success? ==> |r.value| == |items|
    ensures r.Success? ==> forall i :: 0 <= i < |items| ==> CheckChannel(items[i], canCreateDir) == Success(r.value[i])
    ensures r.Failure? ==>
      exists k :: 0 <= k < |items| && CheckChannel(items[k], canCreateDir) == Failure(r.error)
        && forall j :: 0 <= j < k ==> CheckChannel(items[j], canCreateDir).Success?
    decreases |items|
  {
    if items == [] then Success([])
    else
      match CheckChannel(items[0], canCreateDir)
      case Failure(e) => Failure(e)
      case Success(ch) =>
        var rest := ValidateChannels(items[1..], canCreateDir);
        if rest.Failure? then
          assert forall j :: 1 <= j < |items| ==> items[j] == items[1..][j - 1];
          Failure(rest.error)
        else
          Success([ch] + rest.value)
  }

  /** `get_config` on an already parsed document; `None` stands for a
      document `yaml.safe_load` cannot parse. */
  function GetConfig(doc: Option<Value>, canCreateDir: string -> bool): (r: Result<Config, string>)
    // a parse failure or a top level that is not a mapping
    ensures !IsMapDoc(doc) ==> r == Failure(LoadError)
    // `interval` missing, null, or of a type other than int
    ensures IsMapDoc(doc) && !HasIntInterval(doc) ==> r == Failure(IntervalError)
    // any integer is accepted, and it is the interval of the result
    ensures r.Success? ==> HasIntInterval(doc) && doc.value.entries["interval"] == Int(r.value.interval)
    // `channels` absent: the empty channel list
    ensures HasIntInterval(doc) && "channels" !in doc.value.entries ==>
      r == Success(Config(doc.value.entries["interval"].i, []))
    // `channels` present but not a list
    ensures HasIntInterval(doc) && "channels" in doc.value.entries && !doc.value.entries["channels"].List? ==>
      r == Failure(ChannelsError)
    // a list of channels: all of them valid, or the first failure's message
    ensures HasIntInterval(doc) && "channels" in doc.value.entries && doc.value.entries["channels"].List? ==>
      var items := doc.value.entries["channels"].items;
      && (r.Success? <==> forall i :: 0 <= i < |items| ==> CheckChannel(items[i], canCreateDir).Success?)
      && (r.Success? ==> |r.value.channels| == |items|)
      && (r.Success? ==>
            forall i :: 0 <= i < |items| ==> CheckChannel(items[i], canCreateDir) == Success(r.value.channels[i]))
      && (r.Failure? ==>
            exists k :: 0 <= k < |items| && CheckChannel(items[k], canCreateDir) == Failure(r.error) &&
              forall j :: 0 <= j < k ==> CheckChannel(items[j], canCreateDir).Success?)
    // every accepted destination is creatable
    ensures r.Success? ==> forall ch :: ch in r.value.channels ==> canCreateDir(ch.saveTo)
  {
    if !IsMapDoc(doc) then Failure(LoadError)
    else
      var m := doc.value.entries;
      var interval := Get(m, "interval");
      if !interval.Int? then Failure(IntervalError)
      else
        var channels := GetOr(m, "channels", List([]));
        if !channels.List? then Failure(ChannelsError)
        else
          match ValidateChannels(channels.items, canCreateDir)
          case Failure(e) => Failure(e)
          case Success(chs) => Success(Config(interval.i, chs))
  }

  /** The refresh at the end of a loop iteration: a configuration that fails
      validation is reported and the active one is kept unchanged. */
  function Refresh(current: Config, doc: Option<Value>, canCreateDir: string -> bool): (r: Config)
    ensures GetConfig(doc, canCreateDir).Failure? ==> r == current
    ensures GetConfig(doc, canCreateDir).Success? ==> r == GetConfig(doc, canCreateDir).value
  {
    match GetConfig(doc, canCreateDir)
    case Success(c) => c
    case Failure(_) => current
  }

  /** The validator only checks the type of `interval`: zero and negative
      integers pass, although the error message asks for a positive one. */
  lemma AcceptsNonPositiveInterval(canCreateDir: string -> bool)
    ensures GetConfig(Some(Map(map["interval" := Int(0)])), canCreateDir) == Success(Config(0, []))
    ensures GetConfig(Some(Map(map["interval" := Int(-30)])), canCreateDir) == Success(Config(-30, []))
  {
  }

  /** A boolean interval is rejected: `type(True)` is `bool`, not `int`. */
  lemma RejectsBoolInterval(canCreateDir: string -> bool)
    ensures GetConfig(Some(Map(map["interval" := Bool(true)])), canCreateDir) == Failure(IntervalError)
  {
  }
}

=== FILE: engine.dfy ===
/** One poll cycle: for each channel in order, for each video of its feed in
    document order, skip ids already seen, otherwise classify the watch URL,
    launch a recording when it is live, and mark the id seen when the
    classification succeeded. The classifier (`extract_info`) is an oracle;
    a launched recording process is an event. */
module Engine {
  import opened Wrappers
  import opened Text
  import opened Feed
  import opened ConfigSource
  import opened SeenStore
  import Yaml

  /** What classifying a watch URL yields: a result whose `is_live` is true,
      one whose `is_live` is false, a `DownloadError` with its message, or any
      other exception with its text. */
  datatype Outcome = Live | NotLive | DownloadErr(msg: string) | OtherErr(msg: string)

  /** The classification succeeded, so the id is marked seen. */
  predicate Settled(o: Outcome)
  {
    o.Live? || o.NotLive?
  }

  /** The arguments of one recording process. */
  datatype Job = Job(url: string, saveTo: string, title: string)

  /** What a cycle does that can be observed from outside. */
  datatype Event =
    | Probe(url: string)                         // the classifier is asked about `url`
    | Launch(job: Job)                           // a recording process is started
    | ScheduledNotice(url: string, text: string) // a scheduled live event is reported
    | DownloadFailure(text: string)              // another download error is reported
    | OtherFailure(text: string)                 // any other exception is reported

  /** The seen map after some work, and the events of that work in order. */
  datatype Step = Step(seen: SeenMap, events: seq<Event>)

  const WatchPrefix: string := "https://www.youtube.com/watch?v="
  const ScheduledMarker: string := "This live event will begin in"

  function WatchUrl(id: string): string
  {
    WatchPrefix + id
  }

  /** Distinct ids have distinct watch URLs, so counting launches per URL is counting them per id. */
  lemma WatchUrlInjective()
    ensures forall a, b :: WatchUrl(a) == WatchUrl(b) ==> a == b
  {
    forall a, b | WatchUrl(a) == WatchUrl(b)
      ensures a == b
    {
      assert a == WatchUrl(a)[|WatchPrefix|..];
      assert b == WatchUrl(b)[|WatchPrefix|..];
    }
  }

  /** The text reported for a download error that announces a scheduled
      event: the suffix of the message from the first occurrence of the
      marker phrase; `None` when the phrase does not occur. */
  function ScheduledText(msg: string): (r: Option<string>)
    ensures r.Some? <==> Contains(msg, ScheduledMarker)
    ensures r.Some? ==> |r.value| <= |msg| && r.value == msg[|msg| - |r.value|..]
    ensures r.Some? ==> OccursAt(msg, ScheduledMarker, |msg| - |r.value|)
    ensures r.Some? ==> forall j: nat :: j < |msg| - |r.value| ==> !OccursAt(msg, ScheduledMarker, j)
  {
    match Find(msg, ScheduledMarker)
    case Some(i) => Some(msg[i..])
    case None => None
  }

  /** The report of a download error. */
  function DownloadReport(url: string, msg: string): (r: Event)
    ensures r.ScheduledNotice? <==> Contains(msg, ScheduledMarker)
    ensures ScheduledText(msg).Some? ==> r == ScheduledNotice(url, ScheduledText(msg).value)
    // without the phrase the message is reported whole
    ensures !Contains(msg, ScheduledMarker) ==> r == DownloadFailure(msg)
  {
    match ScheduledText(msg)
    case Some(t) => ScheduledNotice(url, t)
    case None => DownloadFailure(msg)
  }

  /** The number of recording processes started for `url`. */
  function LaunchCount(events: seq<Event>, url: string): nat
    decreases |events|
  {
    if events == [] then 0
    else (if events[0].Launch? && events[0].job.url == url then 1 else 0) + LaunchCount(events[1..], url)
  }

  /** Launches of two runs of events add up, for every URL. */
  lemma {:induction false} LaunchCountAppend(a: seq<Event>, b: seq<Event>)
    ensures forall u :: LaunchCount(a + b, u) == LaunchCount(a, u) + LaunchCount(b, u)
    decreases |a|
  {
    if a == [] {
      assert a + b == b;
    } else {
      assert (a + b)[0] == a[0];
      assert (a + b)[1..] == a[1..] + b;
      LaunchCountAppend(a[1..], b);
    }
  }

  lemma LaunchCountProbeLaunch(url: string, job: Job)
    ensures forall u :: LaunchCount([Probe(url), Launch(job)], u) == if job.url == u then 1 else 0
  {
    forall u
      ensures LaunchCount([Probe(url), Launch(job)], u) == if job.url == u then 1 else 0
    {
      LaunchCountAppend([Probe(url)], [Launch(job)]);
      assert [Probe(url)] + [Launch(job)] == [Probe(url), Launch(job)];
      assert [Probe(url)][1..] == [] && [Launch(job)][1..] == [];
    }
  }

  lemma {:induction false} LaunchCountNone(events: seq<Event>)
    requires forall i :: 0 <= i < |events| ==> !events[i].Launch?
    ensures forall u :: LaunchCount(events, u) == 0
    decreases |events|
  {
    if events != [] {
      LaunchCountNone(events[1..]);
    }
  }

  /** The text of the `KeyError` that `video['title']` raises for a record
      without a title; it is caught and reported like any other exception. */
  const TitleKeyError: string := "'title'"

  /** Handling `v` settles it, so its id is marked seen: the classification
      succeeds and, for a live video, the record has the title the recording
      needs. */
  predicate Settles(v: Candidate, classify: string -> Outcome)
  {
    var o := classify(WatchUrl(v.id));
    o.NotLive? || (o.Live? && v.title.Some?)
  }

  /** The work for one video of channel `ch`. */
  function HandleVideo(seen: SeenMap, ch: Channel, v: Candidate, classify: string -> Outcome): (r: Step)
    // an id already seen is not classified and not launched
    ensures IsSeen(seen, v.id) ==> r == Step(seen, [])
    ensures Grows(seen, r.seen)
    ensures forall id :: IsSeen(r.seen, id) <==> IsSeen(seen, id) || (id == v.id && Settles(v, classify))
    ensures forall id :: Probe(WatchUrl(id)) in r.events <==> id == v.id && !IsSeen(seen, id)
    ensures forall id ::
      LaunchCount(r.events, WatchUrl(id))
      == if id == v.id && !IsSeen(seen, id) && classify(WatchUrl(id)).Live? && v.title.Some? then 1 else 0
    ensures forall e :: e in r.events && e.Launch? ==>
              v.title.Some? && e.job == Job(WatchUrl(v.id), ch.saveTo, v.title.value)
    // a live video without a title: the `KeyError` is reported and nothing is launched
    ensures !IsSeen(seen, v.id) && classify(WatchUrl(v.id)).Live? && v.title.None? ==>
              r.events == [Probe(WatchUrl(v.id)), OtherFailure(TitleKeyError)]
    // a download error is reported, a scheduled event from the marker phrase on
    ensures !IsSeen(seen, v.id) && classify(WatchUrl(v.id)).DownloadErr? ==>
              r.events == [Probe(WatchUrl(v.id)), DownloadReport(WatchUrl(v.id), classify(WatchUrl(v.id)).msg)]
    // any other exception is reported with its text
    ensures !IsSeen(seen, v.id) && classify(WatchUrl(v.id)).OtherErr? ==>
              r.events == [Probe(WatchUrl(v.id)), OtherFailure(classify(WatchUrl(v.id)).msg)]
  {
    WatchUrlInjective();
    if IsSeen(seen, v.id) then Step(seen, [])
    else
      var url := WatchUrl(v.id);
      MarkGrows(seen, v.id);
      match classify(url)
      case Live =>
        if v.title.None? then
          LaunchCountNone([Probe(url), OtherFailure(TitleKeyError)]);
          Step(seen, [Probe(url), OtherFailure(TitleKeyError)])
        else
          var job := Job(url, ch.saveTo, v.title.value);
          LaunchCountProbeLaunch(url, job);
          Step(Mark(seen, v.id), [Probe(url), Launch(job)])
      case NotLive =>
        LaunchCountNone([Probe(url)]);
        Step(Mark(seen, v.id), [Probe(url)])
      case DownloadErr(msg) =>
        LaunchCountNone([Probe(url), DownloadReport(url, msg)]);
        Step(seen, [Probe(url), DownloadReport(url, msg)])
      case OtherErr(msg) =>
        LaunchCountNone([Probe(url), OtherFailure(msg)]);
        Step(seen, [Probe(url), OtherFailure(msg)])
  }

  /** The ids of a list of candidates. */
  function Ids(vs: seq<Candidate>): set<string>
  {
    set i | 0 <= i < |vs| :: vs[i].id
  }

  /** The ids of the candidates that settle under `classify`. */
  function SettledIds(vs: seq<Candidate>, classify: string -> Outcome): set<string>
  {
    set i | 0 <= i < |vs| && Settles(vs[i], classify) :: vs[i].id
  }

  /** The ids of the candidates whose record has a title. */
  function TitledIds(vs: seq<Candidate>): set<string>
  {
    set i | 0 <= i < |vs| && vs[i].title.Some? :: vs[i].id
  }

  /** The ids of a list, split into its head and tail. */
  lemma IdsCons(vs: seq<Candidate>)
    requires |vs| > 0
    ensures Ids(vs) == {vs[0].id} + Ids(vs[1..])
  {
    assert forall i :: 0 < i < |vs| ==> vs[1..][i - 1] == vs[i];
    assert forall i :: 0 <= i < |vs[1..]| ==> vs[i + 1] == vs[1..][i];
  }

  /** The settled and titled ids of a list, split into its head and tail. */
  lemma IdSetsCons(vs: seq<Candidate>, classify: string -> Outcome)
    requires |vs| > 0
    ensures SettledIds(vs, classify) == (if Settles(vs[0], classify) then {vs[0].id} else {}) + SettledIds(vs[1..], classify)
    ensures TitledIds(vs) == (if vs[0].title.Some? then {vs[0].id} else {}) + TitledIds(vs[1..])
  {
    assert forall i :: 0 < i < |vs| ==> vs[1..][i - 1] == vs[i];
    assert forall i :: 0 <= i < |vs[1..]| ==> vs[i + 1] == vs[1..][i];
  }

  /** The ids of a concatenation are the union of the parts' ids. */
  lemma {:induction false} IdsAppend(a: seq<Candidate>, b: seq<Candidate>)
    ensures Ids(a + b) == Ids(a) + Ids(b)
    decreases |a|
  {
    if a == [] {
      assert a + b == b;
    } else {
      assert (a + b)[0] == a[0];
      assert (a + b)[1..] == a[1..] + b;
      IdsCons(a + b);
      IdsCons(a);
      IdsAppend(a[1..], b);
    }
  }

  /** The settled and titled ids of a concatenation are the unions of the
      parts' sets. */
  lemma {:induction false} IdSetsAppend(a: seq<Candidate>, b: seq<Candidate>, classify: string -> Outcome)
    ensures SettledIds(a + b, classify) == SettledIds(a, classify) + SettledIds(b, classify)
    ensures TitledIds(a + b) == TitledIds(a) + TitledIds(b)
    decreases |a|
  {
    if a == [] {
      assert a + b == b;
    } else {
      assert (a + b)[0] == a[0];
      assert (a + b)[1..] == a[1..] + b;
      IdSetsCons(a + b, classify);
      IdSetsCons(a, classify);
      IdSetsAppend(a[1..], b, classify);
    }
  }

  /** The videos of one channel's feed, in order; the seen map is threaded
      through. */
  function ProcessFeed(seen: SeenMap, ch: Channel, vs: seq<Candidate>, classify: string -> Outcome): (r: Step)
    ensures Grows(seen, r.seen)
    // a video seen before the pass is neither classified nor launched
    ensures forall id :: IsSeen(seen, id) ==> Probe(WatchUrl(id)) !in r.events && LaunchCount(r.events, WatchUrl(id)) == 0
    decreases |vs|
  {
    if vs == [] then Step(seen, [])
    else
      var first := HandleVideo(seen, ch, vs[0], classify);
      var rest := ProcessFeed(first.seen, ch, vs[1..], classify);
      GrowsTransitive(seen, first.seen, rest.seen);
      LaunchCountAppend(first.events, rest.events);
      Step(rest.seen, first.events + rest.events)
  }

  /** `id` is up for classification in this pass: unseen at its start and offered. */
  predicate Fresh(seen: SeenMap, ids: set<string>, id: string)
  {
    !IsSeen(seen, id) && id in ids
  }

  /** Unfolds one step of `ProcessFeed`. */
  lemma FeedCons(seen: SeenMap, ch: Channel, vs: seq<Candidate>, classify: string -> Outcome)
    requires |vs| > 0
    ensures var first := HandleVideo(seen, ch, vs[0], classify);
            var rest := ProcessFeed(first.seen, ch, vs[1..], classify);
            ProcessFeed(seen, ch, vs, classify) == Step(rest.seen, first.events + rest.events)
  {
  }

  /** Over one channel's feed an id ends seen exactly when it was seen before
      or one of its occurrences in the feed settles. So an id whose
      classification failed, or a live one without a title, stays unseen. */
  lemma {:induction false} FeedSeen(seen: SeenMap, ch: Channel, vs: seq<Candidate>, classify: string -> Outcome)
    ensures forall id :: IsSeen(ProcessFeed(seen, ch, vs, classify).seen, id)
                     <==> IsSeen(seen, id) || id in SettledIds(vs, classify)
    decreases |vs|
  {
    if vs != [] {
      var first := HandleVideo(seen, ch, vs[0], classify);
      FeedCons(seen, ch, vs, classify);
      IdSetsCons(vs, classify);
      FeedSeen(first.seen, ch, vs[1..], classify);
    }
  }

  /** Over one channel's feed the classifier is asked about exactly the ids
      of the feed that were unseen when the pass began. */
  lemma {:induction false} FeedProbes(seen: SeenMap, ch: Channel, vs: seq<Candidate>, classify: string -> Outcome)
    ensures forall id :: Probe(WatchUrl(id)) in ProcessFeed(seen, ch, vs, classify).events <==> Fresh(seen, Ids(vs), id)
    decreases |vs|
  {
    if vs != [] {
      var first := HandleVideo(seen, ch, vs[0], classify);
      FeedCons(seen, ch, vs, classify);
      IdsCons(vs);
      FeedProbes(first.seen, ch, vs[1..], classify);
    }
  }

  /** Over one channel's feed exactly one recording is launched for an id
      that was unseen, has a titled record in the feed and is classified
      live, and none for any other id. */
  lemma {:induction false} FeedLaunches(seen: SeenMap, ch: Channel, vs: seq<Candidate>, classify: string -> Outcome)
    ensures forall id :: LaunchCount(ProcessFeed(seen, ch, vs, classify).events, WatchUrl(id))
                     == if Fresh(seen, TitledIds(vs), id) && classify(WatchUrl(id)).Live? then 1 else 0
    decreases |vs|
  {
    if vs != [] {
      var first := HandleVideo(seen, ch, vs[0], classify);
      var rest := ProcessFeed(first.seen, ch, vs[1..], classify);
      FeedCons(seen, ch, vs, classify);
      IdSetsCons(vs, classify);
      FeedLaunches(first.seen, ch, vs[1..], classify);
      LaunchCountAppend(first.events, rest.events);
    }
  }

  /** Every recording launched for a channel's feed is for a titled video of
      that feed: its watch URL, the channel's destination and its title. */
  lemma {:induction false} FeedJobs(seen: SeenMap, ch: Channel, vs: seq<Candidate>, classify: string -> Outcome)
    ensures forall e :: e in ProcessFeed(seen, ch, vs, classify).events && e.Launch? ==>
              exists i :: 0 <= i < |vs| && vs[i].title.Some? && e.job == Job(WatchUrl(vs[i].id), ch.saveTo, vs[i].title.value)
    decreases |vs|
  {
    if vs != [] {
      var first := HandleVideo(seen, ch, vs[0], classify);
      var rest := ProcessFeed(first.seen, ch, vs[1..], classify);
      FeedCons(seen, ch, vs, classify);
      FeedJobs(first.seen, ch, vs[1..], classify);
      forall e | e in first.events + rest.events && e.Launch?
        ensures exists i :: 0 <= i < |vs| && vs[i].title.Some? && e.job == Job(WatchUrl(vs[i].id), ch.saveTo, vs[i].title.value)
      {
        if e in first.events {
          assert vs[0].title.Some? && e.job == Job(WatchUrl(vs[0].id), ch.saveTo, vs[0].title.value);
        } else {
          var i :| 0 <= i < |vs[1..]| && vs[1..][i].title.Some?
                   && e.job == Job(WatchUrl(vs[1..][i].id), ch.saveTo, vs[1..][i].title.value);
          assert vs[1..][i] == vs[i + 1];
        }
      }
    }
  }

  /** Every configured channel's feed parses into records that all have an id. */
  predicate WellFormedFeeds(chs: seq<Channel>, feed: string -> Elem)
  {
    forall i :: 0 <= i < |chs| ==> FeedComplete(feed(chs[i].id))
  }

  lemma WellFormedTail(chs: seq<Channel>, feed: string -> Elem)
    requires |chs| > 0 && WellFormedFeeds(chs, feed)
    ensures FeedComplete(feed(chs[0].id)) && WellFormedFeeds(chs[1..], feed)
  {
    assert forall i :: 0 <= i < |chs[1..]| ==> chs[1..][i] == chs[i + 1];
  }

  /** The videos a cycle offers: those of every channel's feed, channel after
      channel. */
  function Offered(chs: seq<Channel>, feed: string -> Elem): seq<Candidate>
    requires WellFormedFeeds(chs, feed)
    decreases |chs|
  {
    if chs == [] then []
    else
      WellFormedTail(chs, feed);
      Videos(feed(chs[0].id)) + Offered(chs[1..], feed)
  }

  /** An id is offered in a cycle exactly when some channel's feed holds it. */
  lemma {:induction false} OfferedByChannel(chs: seq<Channel>, feed: string -> Elem)
    requires WellFormedFeeds(chs, feed)
    ensures forall id :: id in Ids(Offered(chs, feed)) <==> exists i :: 0 <= i < |chs| && id in Ids(Videos(feed(chs[i].id)))
    decreases |chs|
  {
    if chs != [] {
      WellFormedTail(chs, feed);
      assert forall i :: 0 <= i < |chs[1..]| ==> chs[1..][i] == chs[i + 1];
      IdsAppend(Videos(feed(chs[0].id)), Offered(chs[1..], feed));
      OfferedByChannel(chs[1..], feed);
      forall id | id in Ids(Offered(chs, feed))
        ensures exists i :: 0 <= i < |chs| && id in Ids(Videos(feed(chs[i].id)))
      {
        if id !in Ids(Videos(feed(chs[0].id))) {
          assert id in Ids(Offered(chs[1..], feed));
          var i :| 0 <= i < |chs[1..]| && id in Ids(Videos(feed(chs[1..][i].id)));
          assert chs[1..][i] == chs[i + 1];
        }
      }
    }
  }

  /** One poll cycle over the channels in listed order; `feed` gives the
      parsed feed of a channel id and `classify` the classifier's verdict on
      a watch URL during this cycle. */
  function RunCycle(seen: SeenMap, chs: seq<Channel>, feed: string -> Elem, classify: string -> Outcome): (r: Step)
    requires WellFormedFeeds(chs, feed)
    ensures Grows(seen, r.seen)
    // a video seen before the cycle is neither classified nor launched
    ensures forall id :: IsSeen(seen, id) ==> Probe(WatchUrl(id)) !in r.events && LaunchCount(r.events, WatchUrl(id)) == 0
    decreases |chs|
  {
    if chs == [] then Step(seen, [])
    else
      WellFormedTail(chs, feed);
      var first := ProcessFeed(seen, chs[0], Videos(feed(chs[0].id)), classify);
      var rest := RunCycle(first.seen, chs[1..], feed, classify);
      GrowsTransitive(seen, first.seen, rest.seen);
      LaunchCountAppend(first.events, rest.events);
      Step(rest.seen, first.events + rest.events)
  }

  /** Unfolds one channel of `RunCycle`. */
  lemma CycleCons(seen: SeenMap, chs: seq<Channel>, feed: string -> Elem, classify: string -> Outcome)
    requires |chs| > 0 && WellFormedFeeds(chs, feed)
    ensures WellFormedFeeds(chs[1..], feed)
    ensures var first := ProcessFeed(seen, chs[0], Videos(feed(chs[0].id)), classify);
            var rest := RunCycle(first.seen, chs[1..], feed, classify);
            RunCycle(seen, chs, feed, classify) == Step(rest.seen, first.events + rest.events)
    ensures var vs := Videos(feed(chs[0].id));
            var more := Offered(chs[1..], feed);
            && Ids(Offered(chs, feed)) == Ids(vs) + Ids(more)
            && SettledIds(Offered(chs, feed), classify) == SettledIds(vs, classify) + SettledIds(more, classify)
            && TitledIds(Offered(chs, feed)) == TitledIds(vs) + TitledIds(more)
  {
    WellFormedTail(chs, feed);
    IdsAppend(Videos(feed(chs[0].id)), Offered(chs[1..], feed));
    IdSetsAppend(Videos(feed(chs[0].id)), Offered(chs[1..], feed), classify);
  }

  /** Over a whole cycle an id ends seen exactly when it was seen before or
      one of its offered occurrences settles. */
  lemma {:induction false} CycleSeen(seen: SeenMap, chs: seq<Channel>, feed: string -> Elem, classify: string -> Outcome)
    requires WellFormedFeeds(chs, feed)
    ensures forall id :: IsSeen(RunCycle(seen, chs, feed, classify).seen, id)
                     <==> IsSeen(seen, id) || id in SettledIds(Offered(chs, feed), classify)
    decreases |chs|
  {
    if chs != [] {
      var first := ProcessFeed(seen, chs[0], Videos(feed(chs[0].id)), classify);
      CycleCons(seen, chs, feed, classify);
      FeedSeen(seen, chs[0], Videos(feed(chs[0].id)), classify);
      CycleSeen(first.seen, chs[1..], feed, classify);
    }
  }

  /** Over a whole cycle the classifier is asked about exactly the offered
      ids that were unseen when the cycle began: never about a seen id. */
  lemma {:induction false} CycleProbes(seen: SeenMap, chs: seq<Channel>, feed: string -> Elem, classify: string -> Outcome)
    requires WellFormedFeeds(chs, feed)
    ensures forall id :: Probe(WatchUrl(id)) in RunCycle(seen, chs, feed, classify).events
                     <==> Fresh(seen, Ids(Offered(chs, feed)), id)
    decreases |chs|
  {
    if chs != [] {
      var first := ProcessFeed(seen, chs[0], Videos(feed(chs[0].id)), classify);
      CycleCons(seen, chs, feed, classify);
      FeedSeen(seen, chs[0], Videos(feed(chs[0].id)), classify);
      FeedProbes(seen, chs[0], Videos(feed(chs[0].id)), classify);
      CycleProbes(first.seen, chs[1..], feed, classify);
    }
  }

  /** Over a whole cycle exactly one recording is launched for each id that
      was unseen, has a titled offered record and is classified live, and
      none for any other id. */
  lemma {:induction false} CycleLaunches(seen: SeenMap, chs: seq<Channel>, feed: string -> Elem, classify: string -> Outcome)
    requires WellFormedFeeds(chs, feed)
    ensures forall id :: LaunchCount(RunCycle(seen, chs, feed, classify).events, WatchUrl(id))
                     == if Fresh(seen, TitledIds(Offered(chs, feed)), id) && classify(WatchUrl(id)).Live? then 1 else 0
    decreases |chs|
  {
    if chs != [] {
      var vs := Videos(feed(chs[0].id));
      var first := ProcessFeed(seen, chs[0], vs, classify);
      CycleCons(seen, chs, feed, classify);
      var rest := RunCycle(first.seen, chs[1..], feed, classify);
      FeedSeen(seen, chs[0], vs, classify);
      FeedLaunches(seen, chs[0], vs, classify);
      CycleLaunches(first.seen, chs[1..], feed, classify);
      LaunchCountAppend(first.events, rest.events);
    }
  }

  /** Every recording launched in a cycle is for a titled video of some
      channel's feed, with that channel's destination and the video's title. */
  lemma {:induction false} CycleJobs(seen: SeenMap, chs: seq<Channel>, feed: string -> Elem, classify: string -> Outcome)
    requires WellFormedFeeds(chs, feed)
    ensures forall e :: e in RunCycle(seen, chs, feed, classify).events && e.Launch? ==>
              exists i, k ::
                && 0 <= i < |chs| && 0 <= k < |Videos(feed(chs[i].id))|
                && Videos(feed(chs[i].id))[k].title.Some?
                && e.job == Job(WatchUrl(Videos(feed(chs[i].id))[k].id), chs[i].saveTo, Videos(feed(chs[i].id))[k].title.value)
    decreases |chs|
  {
    if chs != [] {
      var vs := Videos(feed(chs[0].id));
      var first := ProcessFeed(seen, chs[0], vs, classify);
      CycleCons(seen, chs, feed, classify);
      var rest := RunCycle(first.seen, chs[1..], feed, classify);
      FeedJobs(seen, chs[0], vs, classify);
      CycleJobs(first.seen, chs[1..], feed, classify);
      forall e | e in first.events + rest.events && e.Launch?
        ensures exists i, k ::
                  && 0 <= i < |chs| && 0 <= k < |Videos(feed(chs[i].id))|
                  && Videos(feed(chs[i].id))[k].title.Some?
                  && e.job == Job(WatchUrl(Videos(feed(chs[i].id))[k].id), chs[i].saveTo, Videos(feed(chs[i].id))[k].title.value)
      {
        if e !in first.events {
          var i, k :|
            && 0 <= i < |chs[1..]| && 0 <= k < |Videos(feed(chs[1..][i].id))|
            && Videos(feed(chs[1..][i].id))[k].title.Some?
            && e.job == Job(WatchUrl(Videos(feed(chs[1..][i].id))[k].id), chs[1..][i].saveTo, Videos(feed(chs[1..][i].id))[k].title.value);
          assert chs[1..][i] == chs[i + 1];
        }
      }
    }
  }

  /** A feed of a live video "v1" and an ordinary video "v2", seen by a fresh
      map: one recording for "v1", both ids marked. Polling the same feed
      again classifies nothing and launches nothing, whatever the classifier
      would now say. */
  lemma TwoVideoScenario(ch: Channel, classify: string -> Outcome, later: string -> Outcome)
    requires classify(WatchUrl("v1")) == Live && classify(WatchUrl("v2")) == NotLive
    ensures var vs := [Candidate("v1", Some("Stream")), Candidate("v2", Some("Clip"))];
            var r := ProcessFeed(map[], ch, vs, classify);
            && r.events == [Probe(WatchUrl("v1")), Launch(Job(WatchUrl("v1"), ch.saveTo, "Stream")), Probe(WatchUrl("v2"))]
            && r.seen == map["v1" := Yaml.Bool(true), "v2" := Yaml.Bool(true)]
            && ProcessFeed(r.seen, ch, vs, later).events == []
  {
    var vs := [Candidate("v1", Some("Stream")), Candidate("v2", Some("Clip"))];
    assert vs[1..] == [Candidate("v2", Some("Clip"))];
    assert vs[1..][1..] == [];
    assert "v1" != "v2" by { assert "v1"[1] != "v2"[1]; }
  }

  /** A video whose classification fails with the scheduled-event message:
      the notice carries the message from the marker phrase on, nothing is
      recorded, and the id stays unseen. */
  lemma ScheduledLiveScenario(ch: Channel, classify: string -> Outcome)
    requires classify(WatchUrl("v3")) == DownloadErr(ScheduledMarker + " 3 hours.")
    ensures var r := ProcessFeed(map[], ch, [Candidate("v3", Some("Premiere"))], classify);
            r == Step(map[], [Probe(WatchUrl("v3")), ScheduledNotice(WatchUrl("v3"), ScheduledMarker + " 3 hours.")])
  {
    var msg := ScheduledMarker + " 3 hours.";
    assert [Candidate("v3", Some("Premiere"))][1..] == [];
    assert OccursAt(msg, ScheduledMarker, 0) by {
      assert msg[0..|ScheduledMarker|] == ScheduledMarker;
    }
    assert msg[0..] == msg;
  }

  /** A live video whose record has no title: the `KeyError` is reported,
      nothing is recorded, and the id stays unseen, so the next poll asks the
      classifier again. */
  lemma UntitledLiveScenario(ch: Channel, classify: string -> Outcome)
    requires classify(WatchUrl("v1")) == Live
    ensures var vs := [Candidate("v1", None)];
            var r := ProcessFeed(map[], ch, vs, classify);
            && r == Step(map[], [Probe(WatchUrl("v1")), OtherFailure(TitleKeyError)])
            && ProcessFeed(r.seen, ch, vs, classify) == r
  {
    var vs := [Candidate("v1", None)];
    assert vs[1..] == [];
  }
}

=== FILE: feed.dfy ===
/** Extraction of video records from a channel's parsed Atom feed. The HTTP
    fetch and the XML parse are outside the model: the input is the parsed
    element tree. */
module Feed {
  import opened Wrappers
  import opened Text

  /** An XML element: its namespaced tag, its text and its children in document order. */
  datatype Elem = Elem(tag: string, text: string, children: seq<Elem>)

  /** The record built for one feed entry; a key is absent when no child carried it. */
  datatype Entry = Entry(id: Option<string>, title: Option<string>)

  /** A feed entry that carries an id; its title may be missing. */
  datatype Candidate = Candidate(id: string, title: Option<string>)

  const EntryTag: string := "}entry"
  const VideoIdTag: string := "}videoId"
  const TitleTag: string := "}title"

  predicate IsEntry(e: Elem)
  {
    EndsWith(e.tag, EntryTag)
  }

  /** Reference reading of "the last write wins": the text of the last
      element of `kids` whose tag ends in `suffix`. */
  function LastText(kids: seq<Elem>, suffix: string): (r: Option<string>)
    ensures r.Some? <==> exists i :: 0 <= i < |kids| && EndsWith(kids[i].tag, suffix)
    ensures r.Some? ==>
      exists i :: 0 <= i < |kids| && EndsWith(kids[i].tag, suffix) && kids[i].text == r.value &&
        forall j :: i < j < |kids| ==> !EndsWith(kids[j].tag, suffix)
    decreases |kids|
  {
    if kids == [] then None
    else if EndsWith(kids[|kids| - 1].tag, suffix) then Some(kids[|kids| - 1].text)
    else
      var r := LastText(kids[..|kids| - 1], suffix);
      assert forall i :: 0 <= i < |kids| - 1 ==> kids[..|kids| - 1][i] == kids[i];
      r
  }

  /** One step of the inner loop: a child whose tag ends in `}videoId`
      overwrites `id`, one ending in `}title` overwrites `title`. */
  function Absorb(e: Entry, child: Elem): (r: Entry)
    // the reference reading of a single child, falling back on what `e` holds
    ensures r == Entry(OrElse(LastText([child], VideoIdTag), e.id), OrElse(LastText([child], TitleTag), e.title))
  {
    assert [child][..0] == [];
    var e' := if EndsWith(child.tag, VideoIdTag) then e.(id := Some(child.text)) else e;
    if EndsWith(child.tag, TitleTag) then e'.(title := Some(child.text)) else e'
  }

  /** The inner loop over an entry's children, in document order. Starting
      from any record, the forward overwriting agrees with the reference
      reading: each key ends with the last matching child's text, or keeps
      its starting value when no child matches. */
  function Scan(e: Entry, kids: seq<Elem>): (r: Entry)
    ensures r == Entry(OrElse(LastText(kids, VideoIdTag), e.id), OrElse(LastText(kids, TitleTag), e.title))
    decreases |kids|
  {
    if kids == [] then e
    else
      var r := Scan(Absorb(e, kids[0]), kids[1..]);
      assert kids == [kids[0]] + kids[1..];
      LastTextCons(kids[0], kids[1..], VideoIdTag);
      LastTextCons(kids[0], kids[1..], TitleTag);
      r
  }

  /** The record built for one `}entry` element: `id` and `title` are the
      texts of the last child whose tag ends in `}videoId` and `}title`, and
      are absent when no child does. */
  function MakeEntry(entry: Elem): (r: Entry)
    ensures r == Entry(LastText(entry.children, VideoIdTag), LastText(entry.children, TitleTag))
  {
    Scan(Entry(None, None), entry.children)
  }

  /** The outer loop: one record per direct child that is an entry. */
  function ExtractEntries(kids: seq<Elem>): (r: seq<Entry>)
    ensures |r| <= |kids|
    ensures forall x :: x in r ==> exists i :: 0 <= i < |kids| && IsEntry(kids[i]) && x == MakeEntry(kids[i])
    decreases |kids|
  {
    if kids == [] then []
    else
      var rest := ExtractEntries(kids[1..]);
      assert forall i :: 1 <= i < |kids| ==> kids[i] == kids[1..][i - 1];
      (if IsEntry(kids[0]) then [MakeEntry(kids[0])] else []) + rest
  }

  /** Looking at an extra child first: the earlier child counts only when no later one matches. */
  lemma {:induction false} LastTextCons(k: Elem, rest: seq<Elem>, suffix: string)
    ensures LastText([k] + rest, suffix)
         == OrElse(LastText(rest, suffix), if EndsWith(k.tag, suffix) then Some(k.text) else None)
    decreases |rest|
  {
    var kids := [k] + rest;
    if rest == [] {
      assert kids == [k];
      assert kids[..0] == [];
    } else {
      assert kids[|kids| - 1] == rest[|rest| - 1];
      if !EndsWith(rest[|rest| - 1].tag, suffix) {
        assert kids[..|kids| - 1] == [k] + rest[..|rest| - 1];
        LastTextCons(k, rest[..|rest| - 1], suffix);
      }
    }
  }

  /** Extraction keeps document order: it distributes over concatenation, so
      the records of a feed are those of its children, one after another. */
  lemma {:induction false} ExtractEntriesAppend(a: seq<Elem>, b: seq<Elem>)
    ensures ExtractEntries(a + b) == ExtractEntries(a) + ExtractEntries(b)
    decreases |a|
  {
    if a == [] {
      assert a + b == b;
    } else {
      var head := if IsEntry(a[0]) then [MakeEntry(a[0])] else [];
      assert (a + b)[0] == a[0];
      assert (a + b)[1..] == a[1..] + b;
      assert ExtractEntries(a + b) == head + ExtractEntries(a[1..] + b);
      ExtractEntriesAppend(a[1..], b);
      assert ExtractEntries(a) == head + ExtractEntries(a[1..]);
    }
  }

  /** No entry child is dropped: each one's record is among the records. */
  lemma {:induction false} ExtractEntriesKeepsEntries(kids: seq<Elem>)
    ensures forall i :: 0 <= i < |kids| && IsEntry(kids[i]) ==> MakeEntry(kids[i]) in ExtractEntries(kids)
    decreases |kids|
  {
    if kids != [] {
      ExtractEntriesKeepsEntries(kids[1..]);
      assert forall i :: 1 <= i < |kids| ==> kids[i] == kids[1..][i - 1];
    }
  }

  /** A single child yields its record when it is an entry and nothing otherwise. */
  lemma ExtractEntriesSingle(k: Elem)
    ensures ExtractEntries([k]) == if IsEntry(k) then [MakeEntry(k)] else []
  {
    assert [k][1..] == [];
  }

  /** The loop over the root's children as the program writes it, appending
      one record per entry child. */
  method CollectEntries(root: Elem) returns (videos: seq<Entry>)
    ensures videos == ExtractEntries(root.children)
  {
    var kids := root.children;
    videos := [];
    var i := 0;
    while i < |kids|
      invariant 0 <= i <= |kids|
      invariant videos == ExtractEntries(kids[..i])
    {
      var child := kids[i];
      ExtractEntriesAppend(kids[..i], [child]);
      ExtractEntriesSingle(child);
      assert kids[..i + 1] == kids[..i] + [child];
      if IsEntry(child) {
        videos := videos + [MakeEntry(child)];
      }
      i := i + 1;
    }
    assert kids[..i] == kids;
  }

  /** Every record of the feed carries an id. */
  predicate Complete(entries: seq<Entry>)
  {
    forall i :: 0 <= i < |entries| ==> entries[i].id.Some?
  }

  predicate FeedComplete(root: Elem)
  {
    Complete(ExtractEntries(root.children))
  }

  /** The candidates of a feed, in document order. */
  function Videos(root: Elem): (r: seq<Candidate>)
    requires FeedComplete(root)
    ensures |r| == |ExtractEntries(root.children)|
    ensures forall i :: 0 <= i < |r| ==> ExtractEntries(root.children)[i] == Entry(Some(r[i].id), r[i].title)
  {
    var es := ExtractEntries(root.children);
    seq(|es|, i requires 0 <= i < |es| => Candidate(es[i].id.value, es[i].title))
  }
}

=== FILE: scheduler.dfy ===
/** The main loop: startup (configuration, then the seen file), and per
    iteration one poll cycle, the dump of the seen map, the sleep, and the
    configuration refresh. The loop is infinite; the model runs it over a
    finite sequence of iterations, each with the inputs the outside world
    supplies to it. */
module Scheduler {
  import opened Wrappers
  import opened Yaml
  import opened Feed
  import opened ConfigSource
  import opened SeenStore
  import opened Engine

  /** What the outside world supplies to one iteration of the loop. */
  datatype Tick = Tick(
    feed: string -> Elem,          // the parsed feed of each channel id
    classify: string -> Outcome,   // the classifier's verdict on each watch URL
    configDoc: Option<Value>,      // the configuration document read after the sleep
    canCreateDir: string -> bool)  // whether a destination directory can be created

  /** The loop's state: the active configuration, the in-memory seen map and the seen file. */
  datatype Sched = Sched(config: Config, seen: SeenMap, store: StoreFile)

  /** A state reached, with the events that led to it. */
  datatype Run = Run(state: Sched, events: seq<Event>)

  /** Why the program stops before polling: an invalid configuration (exit
      status 1), or a seen file that does not parse (an uncaught exception). */
  datatype StartError = BadConfig(msg: string) | UnreadableStore

  /** Startup: the configuration is validated first and the seen file is read afterwards. */
  function Start(doc: Option<Value>, canCreateDir: string -> bool, store: StoreFile): (r: Result<Sched, StartError>)
    ensures GetConfig(doc, canCreateDir).Failure? ==> r == Failure(BadConfig(GetConfig(doc, canCreateDir).error))
    ensures GetConfig(doc, canCreateDir).Success? && store.Unparseable? ==> r == Failure(UnreadableStore)
    ensures r.Success? <==> GetConfig(doc, canCreateDir).Success? && !store.Unparseable?
    ensures r.Success? ==> r.value.config == GetConfig(doc, canCreateDir).value
    ensures r.Success? ==> Load(store) == Some(r.value.seen) && r.value.store == store
    ensures r.Success? && (store.Absent? || (store.Stored? && !store.doc.Map?)) ==> r.value.seen == map[]
  {
    match GetConfig(doc, canCreateDir)
    case Failure(msg) => Failure(BadConfig(msg))
    case Success(config) =>
      match Load(store)
      case None => Failure(UnreadableStore)
      case Some(seen) => Success(Sched(config, seen, store))
  }

  /** Every record of every feed of the active channels has an id (the
      program raises an uncaught `KeyError` on a record without one). */
  predicate CanPoll(s: Sched, t: Tick)
  {
    WellFormedFeeds(s.config.channels, t.feed)
  }

  /** One iteration of the loop. */
  function Advance(s: Sched, t: Tick): (r: Run)
    requires CanPoll(s, t)
    // the seen map only grows
    ensures Grows(s.seen, r.state.seen)
    // an id seen before the iteration is neither classified nor launched
    ensures forall id :: IsSeen(s.seen, id) ==>
              Probe(WatchUrl(id)) !in r.events && LaunchCount(r.events, WatchUrl(id)) == 0
    // at most one launch per id, and a launched id ends seen
    ensures forall id :: LaunchCount(r.events, WatchUrl(id)) <= 1
    ensures forall id :: LaunchCount(r.events, WatchUrl(id)) > 0 ==> IsSeen(r.state.seen, id)
    // the file written after the cycle reloads to the in-memory map
    ensures Load(r.state.store) == Some(r.state.seen)
    // the refreshed configuration, or the old one when the new document is rejected
    ensures GetConfig(t.configDoc, t.canCreateDir).Success? ==> r.state.config == GetConfig(t.configDoc, t.canCreateDir).value
    ensures GetConfig(t.configDoc, t.canCreateDir).Failure? ==> r.state.config == s.config
  {
    var cycle := RunCycle(s.seen, s.config.channels, t.feed, t.classify);
    CycleSeen(s.seen, s.config.channels, t.feed, t.classify);
    CycleProbes(s.seen, s.config.channels, t.feed, t.classify);
    CycleLaunches(s.seen, s.config.channels, t.feed, t.classify);
    Run(Sched(Refresh(s.config, t.configDoc, t.canCreateDir), cycle.seen, Persist(cycle.seen)), cycle.events)
  }

  /** No iteration of the run meets a malformed feed record. */
  predicate Feasible(s: Sched, ts: seq<Tick>)
    decreases |ts|
  {
    ts == [] || (CanPoll(s, ts[0]) && Feasible(Advance(s, ts[0]).state, ts[1..]))
  }

  /** A finite prefix of the loop: the iterations `ts` in order. */
  function RunTicks(s: Sched, ts: seq<Tick>): (r: Run)
    requires Feasible(s, ts)
    // the seen map only grows
    ensures Grows(s.seen, r.state.seen)
    // after at least one iteration the file reloads to the in-memory map
    ensures ts != [] ==> Load(r.state.store) == Some(r.state.seen)
    // the configuration in force is the last one that validated
    ensures r.state.config == ConfigAfter(s.config, ts)
    decreases |ts|
  {
    if ts == [] then Run(s, [])
    else
      var first := Advance(s, ts[0]);
      var rest := RunTicks(first.state, ts[1..]);
      GrowsTransitive(s.seen, first.state.seen, rest.state.seen);
      ConfigAfterCons(s.config, ts);
      Run(rest.state, first.events + rest.events)
  }

  /** The configuration in force after the iterations `ts`, started with
      `init`: the last refresh document among them that validates, or `init`
      when none does. */
  function ConfigAfter(init: Config, ts: seq<Tick>): Config
    decreases |ts|
  {
    if ts == [] then init
    else
      match GetConfig(ts[|ts| - 1].configDoc, ts[|ts| - 1].canCreateDir)
      case Success(c) => c
      case Failure(_) => ConfigAfter(init, ts[..|ts| - 1])
  }

  /** Refreshing iteration by iteration reaches the last valid document. */
  lemma {:induction false} ConfigAfterCons(init: Config, ts: seq<Tick>)
    requires ts != []
    ensures ConfigAfter(init, ts) == ConfigAfter(Refresh(init, ts[0].configDoc, ts[0].canCreateDir), ts[1..])
    decreases |ts|
  {
    if |ts| > 1 {
      var front := ts[..|ts| - 1];
      assert front[0] == ts[0];
      assert ts[1..][..|ts| - 2] == front[1..];
      assert ts[1..][|ts| - 2] == ts[|ts| - 1];
      ConfigAfterCons(init, front);
    }
  }

  /** Across any number of iterations: no id gets more than one recording,
      an id seen at the start gets none, and every launched id is seen at
      the end. */
  lemma {:induction false} AtMostOneLaunch(s: Sched, ts: seq<Tick>)
    requires Feasible(s, ts)
    ensures forall id :: LaunchCount(RunTicks(s, ts).events, WatchUrl(id)) <= 1
    ensures forall id :: IsSeen(s.seen, id) ==> LaunchCount(RunTicks(s, ts).events, WatchUrl(id)) == 0
    ensures forall id :: LaunchCount(RunTicks(s, ts).events, WatchUrl(id)) > 0 ==> IsSeen(RunTicks(s, ts).state.seen, id)
    decreases |ts|
  {
    if ts != [] {
      var first := Advance(s, ts[0]);
      var rest := RunTicks(first.state, ts[1..]);
      assert RunTicks(s, ts) == Run(rest.state, first.events + rest.events);
      AtMostOneLaunch(first.state, ts[1..]);
      LaunchCountAppend(first.events, rest.events);
      forall id | LaunchCount(first.events, WatchUrl(id)) > 0
        ensures IsSeen(rest.state.seen, id)
      {
        GrowsKeepsSeen(first.state.seen, rest.state.seen, id);
      }
    }
  }

  /** An id seen at the start is never handed to the classifier again, in
      any later iteration. */
  lemma {:induction false} NeverReclassified(s: Sched, ts: seq<Tick>, id: string)
    requires Feasible(s, ts)
    requires IsSeen(s.seen, id)
    ensures Probe(WatchUrl(id)) !in RunTicks(s, ts).events
    decreases |ts|
  {
    if ts != [] {
      var first := Advance(s, ts[0]);
      GrowsKeepsSeen(s.seen, first.state.seen, id);
      NeverReclassified(first.state, ts[1..], id);
    }
  }

  /** An id whose classification fails (a scheduled event or any other
      error) stays unseen, and is classified again in the next iteration
      whenever a channel of that iteration still offers it. */
  lemma FailedIsRetried(s: Sched, t1: Tick, t2: Tick, id: string)
    requires CanPoll(s, t1)
    requires !IsSeen(s.seen, id) && !Settled(t1.classify(WatchUrl(id)))
    // the next iteration polls the configuration in force after the refresh
    requires WellFormedFeeds(Refresh(s.config, t1.configDoc, t1.canCreateDir).channels, t2.feed)
    requires id in Ids(Offered(Refresh(s.config, t1.configDoc, t1.canCreateDir).channels, t2.feed))
    // after the first iteration the id is still unseen
    ensures !IsSeen(RunCycle(s.seen, s.config.channels, t1.feed, t1.classify).seen, id)
    // and the second iteration hands it to the classifier again
    ensures Probe(WatchUrl(id)) in
              RunCycle(RunCycle(s.seen, s.config.channels, t1.feed, t1.classify).seen,
                       Refresh(s.config, t1.configDoc, t1.canCreateDir).channels, t2.feed, t2.classify).events
  {
    var seen1 := RunCycle(s.seen, s.config.channels, t1.feed, t1.classify).seen;
    CycleSeen(s.seen, s.config.channels, t1.feed, t1.classify);
    CycleProbes(seen1, Refresh(s.config, t1.configDoc, t1.canCreateDir).channels, t2.feed, t2.classify);
  }

  /** The two iterations of `FailedIsRetried` are those the loop runs. */
  lemma AdvanceRunsCycle(s: Sched, t: Tick)
    requires CanPoll(s, t)
    ensures Advance(s, t).state.seen == RunCycle(s.seen, s.config.channels, t.feed, t.classify).seen
    ensures Advance(s, t).state.config == Refresh(s.config, t.configDoc, t.canCreateDir)
    ensures Advance(s, t).events == RunCycle(s.seen, s.config.channels, t.feed, t.classify).events
  {
  }

  /** `FailedIsRetried` over two iterations of the loop: an id whose
      classification fails in one iteration is still unseen after it, and
      the next iteration asks the classifier about it again when one of its
      channels offers it. */
  lemma AdvanceRetries(s: Sched, t1: Tick, t2: Tick, id: string)
    requires CanPoll(s, t1)
    requires !IsSeen(s.seen, id) && !Settled(t1.classify(WatchUrl(id)))
    requires CanPoll(Advance(s, t1).state, t2)
    requires id in Ids(Offered(Advance(s, t1).state.config.channels, t2.feed))
    ensures !IsSeen(Advance(s, t1).state.seen, id)
    ensures Probe(WatchUrl(id)) in Advance(Advance(s, t1).state, t2).events
  {
    AdvanceRunsCycle(s, t1);
    AdvanceRunsCycle(Advance(s, t1).state, t2);
    FailedIsRetried(s, t1, t2, id);
  }

  /** Restarting after an iteration, with a configuration that validates to
      the active one, yields exactly the state the loop would continue
      from: the persisted seen map comes back unchanged, so nothing is
      classified or launched again. */
  lemma RestartResumes(s: Sched, t: Tick, doc: Option<Value>, canCreateDir: string -> bool)
    requires CanPoll(s, t)
    requires GetConfig(doc, canCreateDir) == Success(Advance(s, t).state.config)
    ensures Start(doc, canCreateDir, Advance(s, t).state.store) == Success(Advance(s, t).state)
  {
  }

  /** `config['channels']` on the mapping `get_config` returned: `None`
      stands for the `KeyError` raised when the key is absent. */
  function IndexChannels(doc: Value): Option<Value>
  {
    if doc.Map? && "channels" in doc.entries then Some(doc.entries["channels"]) else None
  }

  /** A configuration without `channels`, which validation accepts. */
  const NoChannelsDoc: Value := Map(map["interval" := Int(60)])

  /** As written, the loop reads the channels from the raw mapping: a
      document without `channels` passes validation and then raises
      `KeyError` at the first iteration. */
  lemma AbsentChannelsRaiseAsWritten(canCreateDir: string -> bool)
    ensures GetConfig(Some(NoChannelsDoc), canCreateDir).Success?
    ensures IndexChannels(NoChannelsDoc).None?
  {
  }

  /** As evidently intended, and as modelled, the loop polls the validated
      channel list, which defaults to empty: the iteration does nothing and
      keeps the seen map. */
  lemma AbsentChannelsIdle(seen: SeenMap, store: StoreFile, canCreateDir: string -> bool, t: Tick)
    ensures GetConfig(Some(NoChannelsDoc), canCreateDir) == Success(Config(60, []))
    ensures CanPoll(Sched(Config(60, []), seen, store), t)
    ensures Advance(Sched(Config(60, []), seen, store), t).events == []
    ensures Advance(Sched(Config(60, []), seen, store), t).state.seen == seen
  {
  }
}

=== FILE: seen_store.dfy ===
/** The `videos_seen` mapping: the ids already handled, its loading at
    startup and its persistence after every cycle. The file is abstracted to
    what `yaml.safe_load` gives back. */
module SeenStore {
  import opened Wrappers
  import opened Yaml

  /** Video id to marker, as loaded from or dumped to the seen file. */
  type SeenMap = map<string, Value>

  /** `videos_seen.get(id) is not None`: a key holding null counts as unseen. */
  predicate IsSeen(seen: SeenMap, id: string)
  {
    id in seen && seen[id] != Null
  }

  /** `videos_seen[id] = True` */
  function Mark(seen: SeenMap, id: string): (r: SeenMap)
    ensures IsSeen(r, id) && r[id] == Bool(true)
    ensures forall k :: k != id ==> (k in r <==> k in seen)
    ensures forall k :: k != id && k in seen ==> r[k] == seen[k]
  {
    seen[id := Bool(true)]
  }

  /** `after` extends `before`: no key disappears, a seen entry keeps its
      value, and every entry that is new or changed holds `True`. The only
      entry that can change is a null one, which counts as unseen. */
  predicate Grows(before: SeenMap, after: SeenMap)
  {
    && (forall k :: k in before ==> k in after)
    && (forall k :: k in before && before[k] != Null ==> after[k] == before[k])
    && (forall k :: k in after && !(k in before && after[k] == before[k]) ==> after[k] == Bool(true))
  }

  /** Marking an unseen id only adds to the map. */
  lemma MarkGrows(seen: SeenMap, id: string)
    requires !IsSeen(seen, id)
    ensures Grows(seen, Mark(seen, id))
  {
  }

  lemma GrowsTransitive(a: SeenMap, b: SeenMap, c: SeenMap)
    requires Grows(a, b) && Grows(b, c)
    ensures Grows(a, c)
  {
  }

  /** Growth never loses a seen id. */
  lemma GrowsKeepsSeen(a: SeenMap, b: SeenMap, id: string)
    requires Grows(a, b) && IsSeen(a, id)
    ensures IsSeen(b, id)
  {
  }

  /** The seen file as the program finds it: missing, not parseable as
      YAML, or parsed to a value. */
  datatype StoreFile = Absent | Unparseable | Stored(doc: Value)

  /** Loading at startup: an absent file or a document that is not a mapping
      gives the empty map; a parse error is not caught and stops the
      program, shown here as `None`. */
  function Load(f: StoreFile): (r: Option<SeenMap>)
    ensures r.None? <==> f.Unparseable?
    ensures f.Absent? ==> r == Some(map[])
    ensures f.Stored? && !f.doc.Map? ==> r == Some(map[])
    ensures f.Stored? && f.doc.Map? ==> r == Some(f.doc.entries)
  {
    match f
    case Absent => Some(map[])
    case Unparseable => None
    case Stored(doc) => if doc.Map? then Some(doc.entries) else Some(map[])
  }

  /** Dumping the map, which overwrites the file: reloading the file gives
      back the same map. */
  function Persist(seen: SeenMap): (r: StoreFile)
    ensures Load(r) == Some(seen)
  {
    Stored(Map(seen))
  }
}

=== FILE: text.dfy ===
/** String predicates with the meaning of Python's `str.endswith`,
    `pat in s` and `s.index(pat)`. */
module Text {
  import opened Wrappers

  /** `s.endswith(suffix)` */
  predicate EndsWith(s: string, suffix: string)
  {
    |suffix| <= |s| && s[|s| - |suffix|..] == suffix
  }

  /** `pat` occurs in `s` starting at position `i`. */
  predicate OccursAt(s: string, pat: string, i: nat)
  {
    i + |pat| <= |s| && s[i..i + |pat|] == pat
  }

  /** `pat in s` */
  predicate Contains(s: string, pat: string)
  {
    exists i: nat :: i <= |s| && OccursAt(s, pat, i)
  }

  /** The first occurrence of `pat` in `s` at or after `from`. */
  function FindFrom(s: string, pat: string, from: nat): (r: Option<nat>)
    ensures r.Some? ==> from <= r.value && OccursAt(s, pat, r.value)
    ensures r.Some? ==> forall j: nat :: from <= j < r.value ==> !OccursAt(s, pat, j)
    ensures r.None? ==> forall j: nat :: from <= j ==> !OccursAt(s, pat, j)
    decreases |s| + 1 - from
  {
    if from + |pat| > |s| then None
    else if s[from..from + |pat|] == pat then Some(from)
    else FindFrom(s, pat, from + 1)
  }

  /** `s.index(pat)` when `pat in s`, and `None` exactly when it is not. */
  function Find(s: string, pat: string): (r: Option<nat>)
    ensures r.Some? <==> Contains(s, pat)
    ensures r.Some? ==> OccursAt(s, pat, r.value)
    ensures r.Some? ==> forall j: nat :: j < r.value ==> !OccursAt(s, pat, j)
  {
    FindFrom(s, pat, 0)
  }
}

=== FILE: wrappers.dfy ===
/** Optional values and success-or-error results, used for the places where
    the program returns `None`, a default, or an error message. */
module Wrappers {

  datatype Option<+T> = None | Some(value: T)

  /** `a` when it holds a value, otherwise `b`. */
  function OrElse<T>(a: Option<T>, b: Option<T>): Option<T>
  {
    if a.Some? then a else b
  }

  datatype Result<+T, +E> = Success(value: T) | Failure(error: E)
}

=== FILE: yaml.dfy ===
/** An abstract YAML document as `yaml.safe_load` returns it: the Python
    value kinds that the validation code distinguishes. */
module Yaml {

  datatype Value =
    | Null                              // None
    | Bool(b: bool)                     // bool (not an int for `type(x) == int`)
    | Int(i: int)                       // int
    | Str(s: string)                    // str
    | List(items: seq<Value>)           // list
    | Map(entries: map<string, Value>)  // dict with string keys
    | Other                             // float, date, and the other scalars

  /** `d.get(key, default)` */
  function GetOr(m: map<string, Value>, key: string, default: Value): Value
  {
    if key in m then m[key] else default
  }

  /** `d.get(key)`: a missing key and a key holding null both give `Null`. */
  function Get(m: map<string, Value>, key: string): Value
  {
    GetOr(m, key, Null)
  }
}
